=== FILE: README.md ===
# MoveView: a verified model of the draggable-image view

`MoveView` is an Android custom view that shows one bitmap and lets the user
drag it with a finger. The image must never cross the view's edges. The view
keeps a small amount of state:

- the image centre (`mPosX`, `mPosY`);
- the last touch point of the tracked pointer;
- the id of the tracked pointer, with the sentinel `-1` for "none";
- a `mMoveable` flag;
- the integer rectangle of the last draw, which the touch-down hit test reads;
- two listener lists. Position-changed listeners are persistent. Touch-input
  listeners are one-shot: each is removed once it has fired.

The model is functional. `MoveView.ViewState` is an immutable record. Each
entry point of the view is a pure function: it returns the next state and a
log of the notifications its listeners receive, in the order they receive
them. The entry points are the constructor, `onSizeChanged`, the rectangle
computation of `onDraw`, `setPosition`, the five branches of `onTouchEvent`,
listener (un)registration, and the getters.

Modules:

- `Geometry`: Java's 32-bit `int` wrap-around, and the `(int)` cast of a
  float. It also holds half sizes by integer division, the `Rect` the hit test
  reads, and the strict containment rule.
- `Listeners`: the two `ArrayList`s, as sequences of listener ids. It holds
  `add` and `remove(Object)`, the broadcast loop for position listeners, and
  the one-shot drain loop exactly as written. It also defines `Evens`/`Odds`,
  a reference definition of that loop's result.
- `MoveView`: the state, and one transition per entry point and per touch
  action. `onTouchEvent` has an explicit error outcome for an event that lacks
  a pointer index the branch reads. For such an event, a `MotionEvent`
  accessor throws.
- `MoveViewProperties`: properties relating transitions to each other, and
  the 32-bit overflow of the `setPosition` guard.
- `MoveViewRuns`: every entry point as an `Event`, and runs of events. A
  `SetPosition` event uses the exact-arithmetic guard of `MoveView.SetPosition`
  (the corrected guard of the row under "## Findings"), not the 32-bit guard
  as written. Three invariants hold along runs:
  - the image stays strictly inside the view along any run that starts with
    the image inside and contains no size change;
  - along any run without a size change, every position notification reports
    a centre that fits;
  - along any run, a one-shot listener fires at most as often as it was
    registered at the start plus the number of times the run arms it.
- `MoveViewScenarios`: concrete runs on a 400 x 400 view with a 40 x 40 image.

Coordinates are exact `real`s. Sizes are `nat`. Java's `mWidth / 2` on a
non-negative `int` is Dafny's `/`. Listener objects are represented by integer ids.
The source's `ArrayList.remove(Object)` compares with `equals`. No listener
class in the program overrides `equals`, so this is identity.

Three details of the source that the model keeps as written:

- The one-shot loop at `MoveView.java:121-124` fires the listener at index
  `i`, removes it (which shifts the later listeners one place left), and then
  advances `i`. With distinct listeners only those at positions 0, 2, 4, ...
  fire and are removed; those at 1, 3, 5, ... stay registered for the next
  touch-down. `Listeners.DrainSkipsEveryOther` proves exactly this.
- `ACTION_POINTER_UP` of the tracked pointer hands tracking to the pointer at
  index `pointerIndex == 0 ? 1 : 0` (line 168): index 1 when the lifted
  pointer was at index 0, index 0 in every other case.
- `ACTION_DOWN` tracks the id of pointer index 0 (line 115), while its
  coordinates come from the action index (lines 108-110).

## Model

| member | source | states |
|---|---|---|
| `Geometry.Wrap32` | src/de/kohlbau/customview/MoveView.java:183 | Java `int` addition or subtraction: always a 32-bit value; the exact result when it fits; the exact result shifted by one 2^32 when it goes just past either end |
| `Geometry.Half` | src/de/kohlbau/customview/MoveView.java:93-96 | Java's `mWidth / 2` on a non-negative size: the largest `h` with `2 * h` not above the size |
| `Geometry.InRect` | src/de/kohlbau/customview/MoveView.java:117 | the hit test, all four edges inclusive; no contract of its own; stated by `MoveView.OnDown` and `MoveViewProperties.DownOnDrawnCentreGrabs` |
| `Geometry.TruncToInt` | src/de/kohlbau/customview/MoveView.java:93-96 | the `(int)` cast rounds toward zero: the floor for non-negative values, the ceiling for negative ones |
| `Listeners.Broadcast` | src/de/kohlbau/customview/MoveView.java:144-146 | the dispatch loop calls every listener of the list exactly once, in list order, with the same coordinates; no listener receives anything on the other channel |
| `Listeners.Add` | src/de/kohlbau/customview/MoveView.java:45-51 | registering appends the listener after all existing ones, which stay in order; the multiset of registrations gains exactly that listener |
| `Listeners.Remove` | src/de/kohlbau/customview/MoveView.java:53-59 | unregistering a registered listener shortens the list by one; unregistering an unknown listener changes nothing |
| `Listeners.RemoveCounts` | src/de/kohlbau/customview/MoveView.java:53-59 | unregistering takes away exactly one registration of that listener, and no registration of any other |
| `Listeners.RemoveUndoesAdd` | src/de/kohlbau/customview/MoveView.java:45-55 | registering a listener that is not registered and then unregistering it gives back the original list |
| `Listeners.RemoveAtFirst` | src/de/kohlbau/customview/MoveView.java:53-55 | unregistering removes the first registration: when no earlier position holds the listener at `j`, exactly position `j` is deleted and the others keep their order |
| `Listeners.RemoveDistinctAt` | src/de/kohlbau/customview/MoveView.java:123 | in a list without duplicates, removing the listener found at position `j` deletes exactly position `j` |
| `Listeners.Drain` | src/de/kohlbau/customview/MoveView.java:121-124 | no contract of its own; stated by `Listeners.DrainLength`, `Listeners.DrainConserves` and `Listeners.DrainFrom` |
| `Listeners.DrainLength` | src/de/kohlbau/customview/MoveView.java:121-124 | the fire-then-remove loop (`Listeners.Drain`) started at `i`: every listener either fires or stays registered; exactly half of the listeners from `i` on fire, rounded up; nothing fires when `i` is past the end |
| `Listeners.DrainConserves` | src/de/kohlbau/customview/MoveView.java:121-124 | the drain neither loses nor duplicates a registration: the listeners that fired plus those left are exactly the listeners that were registered |
| `Listeners.DrainFromFront` | src/de/kohlbau/customview/MoveView.java:121-124 | a drain from index 0 leaves exactly half of the list (rounded down) registered, and conserves registrations |
| `Listeners.DrainFrom` | src/de/kohlbau/customview/MoveView.java:121-124 | the loop invariant: started just after a prefix `done` of listeners it has already skipped, the loop fires the even positions of the rest `todo` and leaves `done` followed by the odd positions of `todo` |
| `Listeners.DrainSkipsEveryOther` | src/de/kohlbau/customview/MoveView.java:121-124 | with distinct listeners, the listeners at positions 0, 2, 4, ... fire (in that order), and those at 1, 3, 5, ... stay registered |
| `Listeners.DrainSingle` | src/de/kohlbau/customview/MoveView.java:121-124 | one armed listener fires once and the list becomes empty |
| `Listeners.DrainPairSkipsSecond` | src/de/kohlbau/customview/MoveView.java:121-124 | of two distinct armed listeners only the first fires; the second stays armed |
| `Listeners.DrainedListenersGone` | src/de/kohlbau/customview/MoveView.java:121-124 | with distinct listeners, every listener that fired is no longer registered |
| `MoveView.Init` | src/de/kohlbau/customview/MoveView.java:29-81 | a new view (field initialisers at 29-35, constructor at 62-81) has the image's size, tracks no pointer (`-1`), is not draggable, and has no listeners; before its first layout its size is 0 x 0, its hit rectangle is the empty `new Rect()` of line 80, and the centre and last touch are Java's default `0` |
| `MoveView.OnSizeChanged` | src/de/kohlbau/customview/MoveView.java:85-89 | a size change records the new size and re-centres on a whole number within half a pixel of the middle of each dimension; nothing else changes |
| `MoveView.OnDraw` | src/de/kohlbau/customview/MoveView.java:92-99 | the drawn rectangle is twice the half size wide and high, and its left and top edges are the truncated centre minus the half sizes (within one pixel toward zero); nothing else changes |
| `MoveView.SetPosition` | src/de/kohlbau/customview/MoveView.java:182-191 | accepted exactly when the image centred there fits strictly inside the view; then the centre becomes `(x, y)` and every position listener is told once, in order; a rejected call changes nothing and tells nobody; containment is preserved |
| `MoveView.SetPositionAsWritten` | src/de/kohlbau/customview/MoveView.java:183 | the guard evaluated in 32-bit `int` arithmetic; when none of the four sums overflows it is the same transition as `SetPosition` |
| `MoveView.FindPointerIndex` | src/de/kohlbau/customview/MoveView.java:129 | `-1` exactly when no pointer carries the id; otherwise the first index whose pointer carries it |
| `MoveView.HandOffIndex` | src/de/kohlbau/customview/MoveView.java:168 | the index tracking passes to is never the lifted one and is 0 or 1: the other of 0 and 1 when the lifted pointer was at one of them, 0 otherwise |
| `MoveViewProperties.UnlaidOutRejectsSetPosition` | src/de/kohlbau/customview/MoveView.java:181-191 | a view with zero width or height (as after construction, before `onSizeChanged`) is not contained, and `setPosition` rejects every centre with no change and no notification |
| `MoveViewProperties.FreshViewGrabsOnlyAtOrigin` | src/de/kohlbau/customview/MoveView.java:116-118 | before the first draw, the empty hit rectangle of line 80 makes a touch-down set the drag flag exactly when it lands on (0, 0) |
| `MoveView.GetPositionX` | src/de/kohlbau/customview/MoveView.java:193-195 | no contract of its own; stated by `MoveViewProperties.SetPositionThenGet` |
| `MoveView.GetPositionY` | src/de/kohlbau/customview/MoveView.java:197-199 | no contract of its own; stated by `MoveViewProperties.SetPositionThenGet` |
| `MoveView.OnDown` | src/de/kohlbau/customview/MoveView.java:106-126 | a touch-down sets the last touch to the action pointer and tracks pointer 0; it makes the view draggable if the point hits the last drawn rectangle (edges included) and otherwise keeps the flag; one-shot registrations are conserved between fired and left; half the list (rounded down) stays; only touch-input notifications at the down point are sent; nothing else changes |
| `MoveView.OnMove` | src/de/kohlbau/customview/MoveView.java:127-153 | not draggable: nothing changes. Draggable: the centre shifts by the displacement since the last touch if the shifted image still fits, and then every position listener is told the new centre; otherwise the centre stays and nobody is told; the last touch becomes the pointer's point either way; containment is preserved |
| `MoveView.OnUp` | src/de/kohlbau/customview/MoveView.java:154-158 | the last finger lifting ends tracking and clears the draggable flag, leaving everything else |
| `MoveView.OnCancel` | src/de/kohlbau/customview/MoveView.java:159-162 | a cancel ends tracking but keeps the draggable flag |
| `MoveView.OnPointerUp` | src/de/kohlbau/customview/MoveView.java:163-174 | lifting the tracked pointer hands tracking to index 1 if it was at index 0 and to index 0 otherwise, and reloads the last touch from that pointer; lifting another pointer changes nothing |
| `MoveView.OnTouchEvent` | src/de/kohlbau/customview/MoveView.java:101-179 | the event is handled (and reported consumed) exactly when every pointer index its branch reads exists; only a down fires or disarms one-shot listeners; only a move notifies position listeners; other actions change nothing |
| `MoveViewProperties.DrawnRectInsideView` | src/de/kohlbau/customview/MoveView.java:93-96 | when the image is inside the view, the drawn rectangle lies within the view's pixel range |
| `MoveViewProperties.DownOnDrawnCentreGrabs` | src/de/kohlbau/customview/MoveView.java:117-119 | after a draw, a touch-down on the drawn centre makes the view draggable |
| `MoveViewProperties.DownFiresEveryOtherListener` | src/de/kohlbau/customview/MoveView.java:121-124 | with distinct one-shot listeners, a touch-down notifies those at even positions and leaves those at odd positions armed |
| `MoveViewProperties.DownFiresSingleListener` | src/de/kohlbau/customview/MoveView.java:121-124 | one armed listener is told the down point once and is disarmed |
| `MoveViewProperties.DownDisarmsFiredListener` | src/de/kohlbau/customview/MoveView.java:121-124 | with distinct listeners, a listener a touch-down fired is no longer armed |
| `MoveViewProperties.MoveAfterUpIsInert` | src/de/kohlbau/customview/MoveView.java:154-158 | after the last finger lifts, a move changes nothing and is still consumed |
| `MoveViewProperties.CancelledDragResumesAnywhere` | src/de/kohlbau/customview/MoveView.java:159-162 | after a cancel of a drag, the next touch-down leaves the view draggable even outside the image |
| `MoveViewProperties.MoveAfterCancelThrows` | src/de/kohlbau/customview/MoveView.java:129-131 | after a cancel of a drag, a move throws, because no pointer carries the sentinel id |
| `MoveViewProperties.HandOffAvoidsJump` | src/de/kohlbau/customview/MoveView.java:167-171 | after the tracked pointer lifts and tracking is handed off, a move with the same pointers does not shift the image |
| `MoveViewProperties.SetPositionThenGet` | src/de/kohlbau/customview/MoveView.java:193-199 | after an accepted `setPosition`, the getters return exactly the given coordinates |
| `MoveViewProperties.SetPositionAcceptsIff` | src/de/kohlbau/customview/MoveView.java:183 | the containment test is the four strict integer comparisons of the guard |
| `MoveViewProperties.SizeChangedFitsIff` | src/de/kohlbau/customview/MoveView.java:87-88 | after a size change the re-centred image fits exactly when each half size of the image is below the half size of the view |
| `MoveViewProperties.SetPositionOverflowEscapes` | src/de/kohlbau/customview/MoveView.java:183 | as written, `setPosition(Integer.MAX_VALUE, 200)` on a laid-out 400 x 400 view with a 40 x 40 image is accepted and puts the image outside the view |
| `MoveViewProperties.SetPositionCorrectedRejects` | src/de/kohlbau/customview/MoveView.java:183 | with exact arithmetic the same call is rejected and the image stays inside |
| `MoveViewRuns.Apply` | src/de/kohlbau/customview/MoveView.java:45-199 | one call: it fails exactly on an ill-formed touch event; only a size change changes sizes; only (un)registering a position listener changes that list |
| `MoveViewRuns.Run` | src/de/kohlbau/customview/MoveView.java:45-199 | the calls in order, stopping when `onTouchEvent` throws; no contract of its own; stated by the `Run...` lemmas below |
| `MoveViewRuns.ApplyKeepsImageInside` | src/de/kohlbau/customview/MoveView.java:137-140 | every call except a size change keeps the image strictly inside the view |
| `MoveViewRuns.RunKeepsImageInside` | src/de/kohlbau/customview/MoveView.java:183-185 | along any run that starts with the image inside and has no size change, the image stays strictly inside the view |
| `MoveViewRuns.ApplyNotifiesOnlyInside` | src/de/kohlbau/customview/MoveView.java:144-146 | every position notification of a call reports the new centre, and that centre fits |
| `MoveViewRuns.TouchNotifiesOnlyInside` | src/de/kohlbau/customview/MoveView.java:137-146 | in one touch event, every position notification reports the new centre, and that centre lies strictly inside the view |
| `MoveViewRuns.RunNotifiesOnlyInside` | src/de/kohlbau/customview/MoveView.java:187-189 | along any run without size changes, every position notification reports a centre that fits |
| `MoveViewRuns.TouchFiresAtMostArmed` | src/de/kohlbau/customview/MoveView.java:121-124 | in one touch event, a listener's notifications plus its remaining registrations never exceed its registrations before |
| `MoveViewRuns.ApplyFiresAtMostArmed` | src/de/kohlbau/customview/MoveView.java:45-59 | in one call, a listener's notifications plus its remaining registrations never exceed its registrations before, plus one if the call arms it |
| `MoveViewRuns.RunFiresAtMostArmed` | src/de/kohlbau/customview/MoveView.java:121-124 | over a run, a listener fires at most as often as it was registered at the start plus the times the run arms it |
| `MoveViewRuns.ArmedOnceFiresAtMostOnce` | src/de/kohlbau/customview/MoveView.java:121-124 | a listener that is not registered and is armed once fires at most once over the run |
| `MoveViewRuns.PositionChangeIsAnnounced` | src/de/kohlbau/customview/MoveView.java:139-146 | apart from a size change, every call that moves the image tells every position listener, in registration order |
| `MoveViewScenarios.RejectedSetPositionKeepsCentre` | src/de/kohlbau/customview/MoveView.java:183 | a centre whose edge would reach 410 in a 400-wide view is rejected and nothing changes |
| `MoveViewScenarios.IdentitySetPositionNotifies` | src/de/kohlbau/customview/MoveView.java:183-189 | setting the current centre is accepted and still reported to the listener |
| `MoveViewScenarios.DragMovesCentre` | src/de/kohlbau/customview/MoveView.java:117-146 | a touch-down on the drawn image followed by a move of (10, 10) moves the centre from (200, 200) to (210, 210) and reports it |
| `MoveViewScenarios.OneShotFiresOnce` | src/de/kohlbau/customview/MoveView.java:121-124 | an armed listener fires on the first touch-down only |

## Left out

- `MoveViewRuns.Apply`: a `SetPosition` event uses the corrected
  exact-arithmetic guard (`MoveView.SetPosition`), so the run invariants hold
  for that corrected guard. With the 32-bit guard as written, containment
  fails along a run, as `MoveViewProperties.SetPositionOverflowEscapes` shows.
- Bitmap loading through `TypedArray`/`BitmapDrawable`, and its failing cast
  (`MoveView.java:65-78`). These are Android resource I/O. The image size is a
  parameter of `MoveView.Init`.
- Canvas drawing and `invalidate()` (`MoveView.java:98`, `142`, `186`). These
  are rendering side effects. Only the rectangle arithmetic of `onDraw` is
  modelled.
- `MotionEventCompat` and `super.onTouchEvent` (`MoveView.java:102`, `177`).
  An event is plain data: an action, an action index, and a list of pointers
  (id and coordinates). Actions the view does not handle are `Other`.
- `MainActivity.java` is not part of this model. It is glue around an
  animator, toasts and labels. It only registers listeners and calls
  `setPosition`, and both are covered by `MoveViewRuns.Event`.
- IEEE float rounding of the centre, the touch points and the deltas.
  Coordinates are exact reals.
- `Geometry.TruncToInt`: does not model the saturation of `(int)` for floats
  beyond the `int` range. Such centres cannot occur while the image stays
  inside an `int`-sized view.
- `MoveView.SetPositionAsWritten`: requires that the arguments and sizes are
  32-bit values, because Java passes and stores them as `int`. Its contract
  states equality with `SetPosition` only when no sum overflows. The
  overflowing case is shown by a counterexample lemma instead of a general
  statement.
- Null listeners. `setOnTouchInputListener(null)` and
  `setOnPositionChangedListener(null)` (`MoveView.java:46`, `50`) are accepted
  by `ArrayList.add`, and the next dispatch then throws a
  `NullPointerException` (`MoveView.java:122`, `145`, `188`). Listener ids are
  plain integers with no null value, so this error path is not modelled.
- What a listener's callback does. A notification is a log entry. Callbacks
  that register or unregister listeners during a dispatch are not modelled.
- The old size arguments of `onSizeChanged` (`oldw`, `oldh`) are unused by
  the source and are not parameters of the model.

## Findings

| source | as written | input that shows it | evidently intended | confidence | as-written member | corrected member |
|---|---|---|---|---|---|---|
| src/de/kohlbau/customview/MoveView.java:183 | the containment guard `x + mWidth / 2 < getWidth()` (and the other three sums) is evaluated in 32-bit `int` arithmetic, so a sum past `Integer.MAX_VALUE` wraps to a negative number and passes | `setPosition(Integer.MAX_VALUE, 200)` on a 400 x 400 view with a 40 x 40 image: `x + 20` wraps negative, the call is accepted, and the centre is set far outside the view | the image is moved only when it lies strictly inside the view, as `SetPosition`'s containment postcondition states | high (not executed) | `MoveViewProperties.SetPositionOverflowEscapes` | `MoveView.SetPosition` |

=== FILE: geometry.dfy ===
/**
 Arithmetic the view relies on: Java's 32-bit `int`, the float-to-int cast used
 when the image rectangle is drawn, half sizes by integer division, and the
 rectangle that the touch-down hit test reads.
 */
module Geometry {

  const INT_MIN: int := -0x8000_0000
  const INT_MAX: int := 0x7fff_ffff
  const TWO_TO_32: int := 0x1_0000_0000

  predicate IsInt32(n: int) {
    INT_MIN <= n <= INT_MAX
  }

  /** The value Java's `int` addition or subtraction yields for the exact result `n`. */
  function Wrap32(n: int): (r: int)
    ensures IsInt32(r)
    ensures IsInt32(n) ==> r == n
    ensures n > INT_MAX && n - TWO_TO_32 <= INT_MAX ==> r == n - TWO_TO_32
    ensures n < INT_MIN && n + TWO_TO_32 >= INT_MIN ==> r == n + TWO_TO_32
  {
    (n - INT_MIN) % TWO_TO_32 + INT_MIN
  }

  /** Half of a non-negative size, as Java's `size / 2` (truncating and Euclidean division agree here). */
  function Half(n: nat): (h: nat)
    ensures 2 * h <= n < 2 * h + 2
  {
    n / 2
  }

  /** Java's `(int) f` on a float: rounds toward zero (range saturation is not modelled). */
  function TruncToInt(v: real): (i: int)
    ensures 0.0 <= v ==> i as real <= v < i as real + 1.0
    ensures v < 0.0 ==> i as real - 1.0 < v <= i as real
  {
    if v >= 0.0 then v.Floor else -((-v).Floor)
  }

  /** android.graphics.Rect: integer edges, `new Rect()` has all four at zero. */
  datatype Rect = Rect(left: int, top: int, right: int, bottom: int)

  const EmptyRect: Rect := Rect(0, 0, 0, 0)

  /** The hit test of a touch-down: all four edges count as inside. */
  predicate InRect(rc: Rect, x: real, y: real) {
    rc.left as real <= x <= rc.right as real && rc.top as real <= y <= rc.bottom as real
  }

  /**
   The containment rule of the view: an image of half sizes `halfW`, `halfH`
   centred at (`cx`, `cy`) lies strictly inside the open area (0, width) x (0, height).
   */
  predicate StrictlyInside(cx: real, cy: real, halfW: nat, halfH: nat, width: nat, height: nat) {
    && cx - halfW as real > 0.0
    && cx + halfW as real < width as real
    && cy - halfH as real > 0.0
    && cy + halfH as real < height as real
  }
}

=== FILE: listeners.dfy ===
/**
 The view's two listener lists (`ArrayList`s of callback objects) and the
 notifications they receive. A listener object is represented by an id.
 `ArrayList.remove(Object)` compares with `equals`; no listener class
 overrides it, so that is identity, and equal ids mean the same object.
 A callback's own effect is not modelled: firing a listener appends one
 entry to a notification log.
 */
module Listeners {

  type ListenerId = int

  /** Which callback interface a notification goes through. */
  datatype Channel = TouchInput | PositionChanged

  datatype Notification = Notification(channel: Channel, listener: ListenerId, x: real, y: real)

  /** The listeners that received a notification on `channel`, in the order they received it. */
  function Received(log: seq<Notification>, channel: Channel): (ids: seq<ListenerId>)
    ensures |ids| <= |log|
  {
    if log == [] then []
    else (if log[0].channel == channel then [log[0].listener] else []) + Received(log[1..], channel)
  }

  lemma {:induction false} ReceivedAppend(a: seq<Notification>, b: seq<Notification>, channel: Channel)
    ensures Received(a + b, channel) == Received(a, channel) + Received(b, channel)
    decreases |a|
  {
    if a == [] {
      assert a + b == b;
    } else {
      var head := if a[0].channel == channel then [a[0].listener] else [];
      assert (a + b)[0] == a[0];
      assert (a + b)[1..] == a[1..] + b;
      ReceivedAppend(a[1..], b, channel);
      assert Received(a + b, channel) == head + (Received(a[1..], channel) + Received(b, channel));
      assert Received(a, channel) == head + Received(a[1..], channel);
      assert head + (Received(a[1..], channel) + Received(b, channel))
          == (head + Received(a[1..], channel)) + Received(b, channel);
    }
  }

  /** The dispatch loop over a list: every listener of `ls`, in list order, called once with (`x`, `y`). */
  function Broadcast(channel: Channel, ls: seq<ListenerId>, x: real, y: real): (log: seq<Notification>)
    ensures |log| == |ls|
    ensures forall k :: 0 <= k < |ls| ==> log[k] == Notification(channel, ls[k], x, y)
    ensures Received(log, channel) == ls
    ensures forall other :: other != channel ==> Received(log, other) == []
  {
    if ls == [] then []
    else
      var rest := Broadcast(channel, ls[1..], x, y);
      var log := [Notification(channel, ls[0], x, y)] + rest;
      assert log[1..] == rest;
      assert ls == [ls[0]] + ls[1..];
      log
  }

  predicate Distinct(ls: seq<ListenerId>) {
    forall i, j :: 0 <= i < j < |ls| ==> ls[i] != ls[j]
  }

  /** `ArrayList.add`: the listener is appended after every registered one. */
  function Add(ls: seq<ListenerId>, id: ListenerId): (r: seq<ListenerId>)
    ensures multiset(r) == multiset(ls) + multiset{id}
    ensures |r| == |ls| + 1 && r[..|ls|] == ls && r[|ls|] == id
  {
    ls + [id]
  }

  /** `ArrayList.remove(Object)`: drops the first registration of `id`, if any, keeping the others in order. */
  function Remove(ls: seq<ListenerId>, id: ListenerId): (r: seq<ListenerId>)
    ensures id in ls ==> |r| == |ls| - 1
    ensures id !in ls ==> r == ls
  {
    if ls == [] then []
    else if ls[0] == id then ls[1..]
    else [ls[0]] + Remove(ls[1..], id)
  }

  /** Removing takes away exactly one registration of `id` when there is one, and nothing else. */
  lemma {:induction false} RemoveCounts(ls: seq<ListenerId>, id: ListenerId)
    ensures id in ls ==> multiset(Remove(ls, id)) + multiset{id} == multiset(ls)
  {
    if ls != [] && id in ls {
      assert ls == [ls[0]] + ls[1..];
      if ls[0] != id {
        RemoveCounts(ls[1..], id);
      }
    }
  }

  /** Removing the listener at `j` deletes position `j` when no earlier position holds the same listener. */
  lemma {:induction false} RemoveAtFirst(ls: seq<ListenerId>, j: nat)
    requires j < |ls| && ls[j] !in ls[..j]
    ensures Remove(ls, ls[j]) == ls[..j] + ls[j + 1..]
  {
    if j > 0 {
      assert ls[0] in ls[..j];
      assert ls[1..][j - 1] == ls[j];
      assert ls[1..][..j - 1] == ls[..j][1..];
      RemoveAtFirst(ls[1..], j - 1);
      assert ls[..j] == [ls[0]] + ls[1..][..j - 1];
      assert ls[j + 1..] == ls[1..][j..];
    }
  }

  /** In a list without duplicates, removing the listener at position `j` deletes exactly that position. */
  lemma RemoveDistinctAt(ls: seq<ListenerId>, j: nat)
    requires Distinct(ls) && j < |ls|
    ensures Remove(ls, ls[j]) == ls[..j] + ls[j + 1..]
  {
    RemoveAtFirst(ls, j);
  }

  /** Registering a listener that is not yet registered and then unregistering it restores the list. */
  lemma RemoveUndoesAdd(ls: seq<ListenerId>, id: ListenerId)
    requires id !in ls
    ensures Remove(Add(ls, id), id) == ls
  {
    var r := Add(ls, id);
    assert r[|ls|] == id;
    RemoveAtFirst(r, |ls|);
    assert r[..|ls|] == ls;
  }

  /** Deleting one position from a list without duplicates leaves a list without duplicates. */
  lemma DistinctWithout(ls: seq<ListenerId>, j: nat)
    requires Distinct(ls) && j < |ls|
    ensures Distinct(ls[..j] + ls[j + 1..])
  {
    var r := ls[..j] + ls[j + 1..];
    forall a, b | 0 <= a < b < |r|
      ensures r[a] != r[b]
    {
      var a' := if a < j then a else a + 1;
      var b' := if b < j then b else b + 1;
      assert r[a] == ls[a'] && r[b] == ls[b'];
    }
  }

  /** The result of draining the one-shot list: who fired, in firing order, and who is still registered. */
  datatype Drained = Drained(fired: seq<ListenerId>, remaining: seq<ListenerId>)

  /**
   The one-shot dispatch loop as the view writes it: while `i` is below the
   list's current size, fire the listener at `i`, remove that listener (its
   first registration) from the list, then advance `i`. Every removal shifts
   the unvisited listeners one place left under the advancing index.
   */
  function Drain(ls: seq<ListenerId>, i: nat): (r: Drained)
    decreases |ls| - i
  {
    if i < |ls| then
      var rest := Drain(Remove(ls, ls[i]), i + 1);
      Drained([ls[i]] + rest.fired, rest.remaining)
    else
      Drained([], ls)
  }

  /** Each turn of the drain loop removes exactly the listener it fires: no listener is lost or duplicated. */
  lemma {:induction false} DrainConserves(ls: seq<ListenerId>, i: nat)
    ensures multiset(Drain(ls, i).fired) + multiset(Drain(ls, i).remaining) == multiset(ls)
    decreases |ls| - i
  {
    if i < |ls| {
      DrainConserves(Remove(ls, ls[i]), i + 1);
      DrainTurnConserves(ls, i);
    }
  }

  /** One turn keeps the registrations balanced when the rest of the drain does. */
  lemma DrainTurnConserves(ls: seq<ListenerId>, i: nat)
    requires i < |ls|
    requires var d := Drain(Remove(ls, ls[i]), i + 1); multiset(d.fired) + multiset(d.remaining) == multiset(Remove(ls, ls[i]))
    ensures multiset(Drain(ls, i).fired) + multiset(Drain(ls, i).remaining) == multiset(ls)
  {
    var shorter := Remove(ls, ls[i]);
    DrainStep(ls, i);
    RemoveCounts(ls, ls[i]);
    TurnConserves(ls[i], ls, shorter, Drain(shorter, i + 1), Drain(ls, i));
  }

  /** Firing `id` in front of a drain of the list without `id` accounts for every registration of the list. */
  lemma TurnConserves(id: ListenerId, ls: seq<ListenerId>, shorter: seq<ListenerId>, rest: Drained, d: Drained)
    requires multiset(shorter) + multiset{id} == multiset(ls)
    requires multiset(rest.fired) + multiset(rest.remaining) == multiset(shorter)
    requires d.fired == [id] + rest.fired && d.remaining == rest.remaining
    ensures multiset(d.fired) + multiset(d.remaining) == multiset(ls)
  {
    assert multiset([id] + rest.fired) == multiset{id} + multiset(rest.fired);
  }

  /** One turn of the loop: fire the listener at `i`, then drain the shortened list from `i + 1`. */
  lemma DrainStep(ls: seq<ListenerId>, i: nat)
    requires i < |ls|
    ensures Drain(ls, i).fired == [ls[i]] + Drain(Remove(ls, ls[i]), i + 1).fired
    ensures Drain(ls, i).remaining == Drain(Remove(ls, ls[i]), i + 1).remaining
  {
  }

  /**
   Every listener either fires or stays registered, and from position `i` on
   the loop fires every second listener: half of them, rounded up.
   */
  lemma {:induction false} DrainLength(ls: seq<ListenerId>, i: nat)
    ensures |Drain(ls, i).fired| + |Drain(ls, i).remaining| == |ls|
    ensures i < |ls| ==> |ls| - i <= 2 * |Drain(ls, i).fired| <= |ls| - i + 1
    ensures i >= |ls| ==> Drain(ls, i).fired == []
    decreases |ls| - i
  {
    if i < |ls| {
      DrainLength(Remove(ls, ls[i]), i + 1);
      DrainStep(ls, i);
    }
  }

  /** Started at the front, the drain fires the listener it removes and leaves half of the list (rounded down). */
  lemma DrainFromFront(ls: seq<ListenerId>)
    ensures multiset(Drain(ls, 0).fired) + multiset(Drain(ls, 0).remaining) == multiset(ls)
    ensures |Drain(ls, 0).remaining| == |ls| / 2
  {
    DrainConserves(ls, 0);
    DrainLength(ls, 0);
  }

  /** The listeners at positions 0, 2, 4, ... of `ls`, in order. */
  function Evens(ls: seq<ListenerId>): (r: seq<ListenerId>)
    ensures |r| == (|ls| + 1) / 2
    ensures forall k :: 0 <= k < |r| ==> r[k] == ls[2 * k]
    decreases |ls|
  {
    if ls == [] then [] else [ls[0]] + Odds(ls[1..])
  }

  /** The listeners at positions 1, 3, 5, ... of `ls`, in order. */
  function Odds(ls: seq<ListenerId>): (r: seq<ListenerId>)
    ensures |r| == |ls| / 2
    ensures forall k :: 0 <= k < |r| ==> r[k] == ls[2 * k + 1]
    decreases |ls|
  {
    if ls == [] then [] else Evens(ls[1..])
  }

  /** One turn of the drain loop at position `|done|`: it removes exactly the listener it fires. */
  lemma DrainTurn(done: seq<ListenerId>, todo: seq<ListenerId>)
    requires Distinct(done + todo) && todo != []
    ensures Remove(done + todo, todo[0]) == done + todo[1..]
    ensures Distinct(done + todo[1..])
  {
    var ls := done + todo;
    var i := |done|;
    assert ls[i] == todo[0];
    assert ls[..i] == done && ls[i + 1..] == todo[1..];
    RemoveDistinctAt(ls, i);
    DistinctWithout(ls, i);
  }

  /** Moving the skipped second listener from the unvisited part to the visited part. */
  lemma SkipSecond(done: seq<ListenerId>, todo: seq<ListenerId>)
    requires |todo| >= 2
    ensures done + todo[1..] == (done + [todo[1]]) + todo[2..]
  {
  }

  /** Regrouping the visited part after the skipped listener joins it. */
  lemma AppendAssoc(a: seq<ListenerId>, b: seq<ListenerId>, c: seq<ListenerId>)
    ensures a + (b + c) == (a + b) + c
  {
  }

  /** Two positions further on, the even and odd selections each gain one element. */
  lemma EvensOddsStep(ls: seq<ListenerId>)
    requires |ls| >= 2
    ensures Evens(ls) == [ls[0]] + Evens(ls[2..])
    ensures Odds(ls) == [ls[1]] + Odds(ls[2..])
  {
    assert ls[1..][1..] == ls[2..];
  }

  /**
   The drain loop started at a position `|done|` of a list without duplicates
   whose first `|done|` entries are listeners it has already skipped: from
   there it fires every other listener of `todo` and leaves the rest.
   */
  lemma {:induction false} DrainFrom(done: seq<ListenerId>, todo: seq<ListenerId>)
    requires Distinct(done + todo)
    ensures Drain(done + todo, |done|) == Drained(Evens(todo), done + Odds(todo))
    decreases |todo|
  {
    var ls := done + todo;
    if todo == [] {
      assert ls == done;
    } else {
      DrainTurn(done, todo);
      var rest := done + todo[1..];
      assert ls[|done|] == todo[0];
      var after := Drain(rest, |done| + 1);
      assert Drain(ls, |done|) == Drained([todo[0]] + after.fired, after.remaining);
      if |todo| == 1 {
        assert rest == done;
      } else {
        var done' := done + [todo[1]];
        SkipSecond(done, todo);
        DrainFrom(done', todo[2..]);
        assert after == Drained(Evens(todo[2..]), done' + Odds(todo[2..]));
        EvensOddsStep(todo);
        AppendAssoc(done, [todo[1]], Odds(todo[2..]));
      }
    }
  }

  /**
   With distinct listeners the loop fires exactly those at even positions
   and leaves exactly those at odd positions registered.
   */
  lemma DrainSkipsEveryOther(ls: seq<ListenerId>)
    requires Distinct(ls)
    ensures Drain(ls, 0) == Drained(Evens(ls), Odds(ls))
  {
    assert [] + ls == ls;
    DrainFrom([], ls);
  }

  /** A single armed listener fires once and the list is left empty. */
  lemma DrainSingle(id: ListenerId)
    ensures Drain([id], 0) == Drained([id], [])
  {
    DrainSkipsEveryOther([id]);
  }

  /** Two armed listeners: only the first fires; the second stays armed for the next touch-down. */
  lemma DrainPairSkipsSecond(a: ListenerId, b: ListenerId)
    requires a != b
    ensures Drain([a, b], 0) == Drained([a], [b])
  {
    DrainSkipsEveryOther([a, b]);
  }

  /** A list without duplicates registers each listener at most once. */
  lemma {:induction false} DistinctAtMostOnce(ls: seq<ListenerId>, id: ListenerId)
    requires Distinct(ls)
    ensures multiset(ls)[id] <= 1
    decreases |ls|
  {
    if ls != [] {
      assert ls == [ls[0]] + ls[1..];
      assert Distinct(ls[1..]);
      DistinctAtMostOnce(ls[1..], id);
      if ls[0] == id {
        assert id !in ls[1..];
      }
    }
  }

  /** A listener that fired from a list without duplicates is no longer registered. */
  lemma DrainedListenersGone(ls: seq<ListenerId>, i: nat, id: ListenerId)
    requires Distinct(ls) && id in Drain(ls, i).fired
    ensures id !in Drain(ls, i).remaining
  {
    var d := Drain(ls, i);
    DrainConserves(ls, i);
    DistinctAtMostOnce(ls, id);
    assert multiset(d.fired)[id] >= 1;
    assert multiset(d.fired)[id] + multiset(d.remaining)[id] == multiset(ls)[id];
  }
}

=== FILE: move_view.dfy ===
/**
 The draggable-image view: its state, and one pure transition per entry point
 (size change, draw, `setPosition`, and the five touch actions). A transition
 returns the next state together with the notifications its listeners receive,
 in the order they receive them.
 */
module MoveView {
  import opened Geometry
  import opened Listeners

  /** The sentinel for "no pointer is being tracked". */
  const INVALID_POINTER_ID: int := -1

  datatype ViewState = ViewState(
    imageWidth: nat,            // the bitmap's width
    imageHeight: nat,           // the bitmap's height
    width: nat,                 // the view's width, from the last size change
    height: nat,                // the view's height, from the last size change
    posX: real,                 // centre of the image
    posY: real,
    lastTouchX: real,           // last raw coordinates of the tracked pointer
    lastTouchY: real,
    activePointerId: int,
    moveable: bool,             // whether moves of the tracked pointer drag the image
    imagePosition: Rect,        // rectangle of the last draw, used by the hit test
    touchListeners: seq<ListenerId>,     // one-shot touch-input listeners
    positionListeners: seq<ListenerId>)  // persistent position-changed listeners

  datatype Transition = Transition(state: ViewState, log: seq<Notification>)

  /** One contact of a touch event: its id and raw coordinates. */
  datatype Pointer = Pointer(id: int, x: real, y: real)

  /** The masked action of a touch event; `Other` stands for every action the view ignores. */
  datatype Action = Down | Move | Up | Cancel | PointerUp | Other

  /** A touch event: the action, the index of the pointer it concerns, and its pointers by index. */
  datatype MotionEvent = MotionEvent(action: Action, actionIndex: nat, pointers: seq<Pointer>)

  /**
   What `onTouchEvent` does with an event: it returns a flag after changing the
   state, or it reads a pointer index the event does not have, which throws.
   */
  datatype TouchOutcome = Handled(t: Transition, consumed: bool) | PointerIndexOutOfRange

  /** The view right after construction from an image of the given size, before its first layout. */
  function Init(imageWidth: nat, imageHeight: nat): (s: ViewState)
    ensures s.imageWidth == imageWidth && s.imageHeight == imageHeight
    ensures s.activePointerId == INVALID_POINTER_ID && !s.moveable
    ensures s.touchListeners == [] && s.positionListeners == []
    ensures s.width == 0 && s.height == 0 && s.imagePosition == EmptyRect
    ensures s.posX == 0.0 && s.posY == 0.0 && s.lastTouchX == 0.0 && s.lastTouchY == 0.0
  {
    ViewState(imageWidth, imageHeight, 0, 0, 0.0, 0.0, 0.0, 0.0,
              INVALID_POINTER_ID, false, EmptyRect, [], [])
  }

  /** The image, centred at (`cx`, `cy`), would lie strictly inside the view. */
  predicate FitsAt(s: ViewState, cx: real, cy: real) {
    StrictlyInside(cx, cy, Half(s.imageWidth), Half(s.imageHeight), s.width, s.height)
  }

  /** The containment invariant: the image currently lies strictly inside the view. */
  predicate Contained(s: ViewState) {
    FitsAt(s, s.posX, s.posY)
  }

  function GetPositionX(s: ViewState): real {
    s.posX
  }

  function GetPositionY(s: ViewState): real {
    s.posY
  }

  // ----- size change and drawing -----

  /**
   A new size re-centres the image on the integer half of each dimension;
   nothing else (drag state, last touch, listeners) is reconciled.
   */
  function OnSizeChanged(s: ViewState, w: nat, h: nat): (r: ViewState)
    ensures r.width == w && r.height == h
    ensures r.posX.Floor as real == r.posX && w as real - 1.0 <= 2.0 * r.posX <= w as real
    ensures r.posY.Floor as real == r.posY && h as real - 1.0 <= 2.0 * r.posY <= h as real
    ensures r == s.(width := w, height := h, posX := r.posX, posY := r.posY)
  {
    s.(width := w, height := h, posX := (w / 2) as real, posY := (h / 2) as real)
  }

  /**
   Drawing records the integer rectangle the bitmap is drawn into: the
   truncated centre plus and minus the half sizes. It is the rectangle the
   next touch-down is hit-tested against.
   */
  function OnDraw(s: ViewState): (r: ViewState)
    ensures r == s.(imagePosition := r.imagePosition)
    ensures r.imagePosition.right - r.imagePosition.left == 2 * Half(s.imageWidth)
    ensures r.imagePosition.bottom - r.imagePosition.top == 2 * Half(s.imageHeight)
    ensures 0.0 <= s.posX ==>
      r.imagePosition.left as real <= s.posX - Half(s.imageWidth) as real < r.imagePosition.left as real + 1.0
    ensures s.posX < 0.0 ==>
      r.imagePosition.left as real - 1.0 < s.posX - Half(s.imageWidth) as real <= r.imagePosition.left as real
    ensures 0.0 <= s.posY ==>
      r.imagePosition.top as real <= s.posY - Half(s.imageHeight) as real < r.imagePosition.top as real + 1.0
    ensures s.posY < 0.0 ==>
      r.imagePosition.top as real - 1.0 < s.posY - Half(s.imageHeight) as real <= r.imagePosition.top as real
  {
    var cx := TruncToInt(s.posX);
    var cy := TruncToInt(s.posY);
    s.(imagePosition := Rect(cx - Half(s.imageWidth), cy - Half(s.imageHeight),
                             cx + Half(s.imageWidth), cy + Half(s.imageHeight)))
  }

  // ----- setPosition -----

  /**
   `setPosition(x, y)`: accepted exactly when the image centred at (`x`, `y`)
   lies strictly inside the view; then the centre becomes (`x`, `y`) and every
   position listener is told so once, in registration order. A rejected call
   changes nothing and tells nobody. The guard is evaluated on exact integers
   (see SetPositionAsWritten for the 32-bit evaluation).
   */
  function SetPosition(s: ViewState, x: int, y: int): (r: Transition)
    ensures FitsAt(s, x as real, y as real) ==>
      && r.state == s.(posX := x as real, posY := y as real)
      && |r.log| == |s.positionListeners|
      && (forall k :: 0 <= k < |r.log| ==>
            r.log[k] == Notification(PositionChanged, s.positionListeners[k], x as real, y as real))
    ensures !FitsAt(s, x as real, y as real) ==> r == Transition(s, [])
    ensures Contained(s) ==> Contained(r.state)
    ensures r.log != [] ==> Contained(r.state)
  {
    var hw := Half(s.imageWidth);
    var hh := Half(s.imageHeight);
    if x - hw > 0 && x + hw < s.width && y - hh > 0 && y + hh < s.height then
      Transition(s.(posX := x as real, posY := y as real),
                 Broadcast(PositionChanged, s.positionListeners, x as real, y as real))
    else
      Transition(s, [])
  }

  /**
   `setPosition` with its guard evaluated as Java evaluates it: `x + mWidth / 2`
   and the other three sums are 32-bit `int` operations that wrap around.
   Whenever none of them overflows it is the same transition as SetPosition.
   */
  function SetPositionAsWritten(s: ViewState, x: int, y: int): (r: Transition)
    requires IsInt32(x) && IsInt32(y)
    requires IsInt32(s.imageWidth) && IsInt32(s.imageHeight) && IsInt32(s.width) && IsInt32(s.height)
    ensures (IsInt32(x + Half(s.imageWidth)) && IsInt32(x - Half(s.imageWidth)) &&
             IsInt32(y + Half(s.imageHeight)) && IsInt32(y - Half(s.imageHeight)))
            ==> r == SetPosition(s, x, y)
  {
    var hw := Half(s.imageWidth);
    var hh := Half(s.imageHeight);
    if Wrap32(x - hw) > 0 && Wrap32(x + hw) < s.width && Wrap32(y - hh) > 0 && Wrap32(y + hh) < s.height then
      Transition(s.(posX := x as real, posY := y as real),
                 Broadcast(PositionChanged, s.positionListeners, x as real, y as real))
    else
      Transition(s, [])
  }

  // ----- touch events -----

  /** `findPointerIndex`: the index of the pointer with id `id`, or -1 when the event has none. */
  function FindPointerIndex(ps: seq<Pointer>, id: int): (k: int)
    ensures -1 <= k < |ps|
    ensures k == -1 <==> forall j :: 0 <= j < |ps| ==> ps[j].id != id
    ensures 0 <= k ==> ps[k].id == id && forall j :: 0 <= j < k ==> ps[j].id != id
  {
    if ps == [] then -1
    else if ps[0].id == id then 0
    else
      var k := FindPointerIndex(ps[1..], id);
      if k == -1 then -1 else k + 1
  }

  /** The pointer that takes over when the pointer at `index` lifts. */
  function HandOffIndex(index: nat): (j: nat)
    ensures j != index && j <= 1
    ensures index <= 1 ==> j == 1 - index
    ensures index >= 2 ==> j == 0
  {
    if index == 0 then 1 else 0
  }

  /** Every pointer index the view reads while handling `ev` exists. */
  predicate TouchWellFormed(s: ViewState, ev: MotionEvent) {
    match ev.action
    case Down => ev.actionIndex < |ev.pointers|
    case Move => s.moveable ==> FindPointerIndex(ev.pointers, s.activePointerId) >= 0
    case PointerUp =>
      && ev.actionIndex < |ev.pointers|
      && (ev.pointers[ev.actionIndex].id == s.activePointerId ==> HandOffIndex(ev.actionIndex) < |ev.pointers|)
    case Up => true
    case Cancel => true
    case Other => true
  }

  /**
   A first finger goes down: its coordinates become the last touch, pointer 0
   becomes the tracked pointer, the view becomes draggable if the point hits
   the last-drawn rectangle (and otherwise keeps its previous flag), and the
   one-shot listeners are drained by the fire-then-remove loop.
   */
  function OnDown(s: ViewState, ev: MotionEvent): (r: Transition)
    requires ev.actionIndex < |ev.pointers|
    ensures var p := ev.pointers[ev.actionIndex];
      && r.state.lastTouchX == p.x && r.state.lastTouchY == p.y
      && r.state.activePointerId == ev.pointers[0].id
      && r.state.moveable == (s.moveable || InRect(s.imagePosition, p.x, p.y))
      && (forall k :: 0 <= k < |r.log| ==> r.log[k].channel == TouchInput && r.log[k].x == p.x && r.log[k].y == p.y)
    ensures r.state == s.(lastTouchX := r.state.lastTouchX, lastTouchY := r.state.lastTouchY,
                          activePointerId := r.state.activePointerId, moveable := r.state.moveable,
                          touchListeners := r.state.touchListeners)
    ensures multiset(Received(r.log, TouchInput)) + multiset(r.state.touchListeners) == multiset(s.touchListeners)
    ensures |r.state.touchListeners| == |s.touchListeners| / 2
    ensures Received(r.log, PositionChanged) == []
  {
    var p := ev.pointers[ev.actionIndex];
    var hit := p.x >= s.imagePosition.left as real && p.x <= s.imagePosition.right as real
            && p.y >= s.imagePosition.top as real && p.y <= s.imagePosition.bottom as real;
    var drained := Drain(s.touchListeners, 0);
    DrainFromFront(s.touchListeners);
    Transition(s.(lastTouchX := p.x, lastTouchY := p.y,
                  activePointerId := ev.pointers[0].id,
                  moveable := if hit then true else s.moveable,
                  touchListeners := drained.remaining),
               Broadcast(TouchInput, drained.fired, p.x, p.y))
  }

  /**
   The tracked pointer moved. When the view is not draggable nothing happens.
   Otherwise the image follows the finger's displacement since the last touch
   if the displaced image still lies strictly inside the view (and every
   position listener is told the new centre); the last touch becomes the
   pointer's coordinates either way.
   */
  function OnMove(s: ViewState, ev: MotionEvent): (r: Transition)
    requires s.moveable ==> FindPointerIndex(ev.pointers, s.activePointerId) >= 0
    ensures !s.moveable ==> r == Transition(s, [])
    ensures s.moveable ==>
      var p := ev.pointers[FindPointerIndex(ev.pointers, s.activePointerId)];
      var nx := s.posX + (p.x - s.lastTouchX);
      var ny := s.posY + (p.y - s.lastTouchY);
      && r.state == s.(posX := r.state.posX, posY := r.state.posY, lastTouchX := p.x, lastTouchY := p.y)
      && (FitsAt(s, nx, ny) ==>
            && r.state.posX == nx && r.state.posY == ny
            && |r.log| == |s.positionListeners|
            && (forall k :: 0 <= k < |r.log| ==>
                  r.log[k] == Notification(PositionChanged, s.positionListeners[k], nx, ny)))
      && (!FitsAt(s, nx, ny) ==> r.state.posX == s.posX && r.state.posY == s.posY && r.log == [])
    ensures Contained(s) ==> Contained(r.state)
    ensures r.log != [] ==> Contained(r.state)
  {
    if s.moveable then
      var p := ev.pointers[FindPointerIndex(ev.pointers, s.activePointerId)];
      var dx := p.x - s.lastTouchX;
      var dy := p.y - s.lastTouchY;
      var hw := Half(s.imageWidth) as real;
      var hh := Half(s.imageHeight) as real;
      if s.posX + dx - hw > 0.0 && s.posX + dx + hw < s.width as real
         && s.posY + dy - hh > 0.0 && s.posY + dy + hh < s.height as real then
        var moved := s.(posX := s.posX + dx, posY := s.posY + dy);
        Transition(moved.(lastTouchX := p.x, lastTouchY := p.y),
                   Broadcast(PositionChanged, s.positionListeners, moved.posX, moved.posY))
      else
        Transition(s.(lastTouchX := p.x, lastTouchY := p.y), [])
    else
      Transition(s, [])
  }

  /** The last finger lifts: tracking ends and the view stops being draggable. */
  function OnUp(s: ViewState): (r: ViewState)
    ensures r.activePointerId == INVALID_POINTER_ID && !r.moveable
    ensures r == s.(activePointerId := INVALID_POINTER_ID, moveable := false)
  {
    s.(activePointerId := INVALID_POINTER_ID, moveable := false)
  }

  /** The gesture is cancelled: tracking ends, but the draggable flag is kept. */
  function OnCancel(s: ViewState): (r: ViewState)
    ensures r.activePointerId == INVALID_POINTER_ID && r.moveable == s.moveable
    ensures r == s.(activePointerId := INVALID_POINTER_ID)
  {
    s.(activePointerId := INVALID_POINTER_ID)
  }

  /**
   A non-last finger lifts. If it is the tracked one, tracking passes to the
   pointer at index 1 when the lifted one was at index 0, and to index 0
   otherwise, and the last touch is reloaded from that pointer. Lifting any
   other pointer changes nothing.
   */
  function OnPointerUp(s: ViewState, ev: MotionEvent): (r: ViewState)
    requires ev.actionIndex < |ev.pointers|
    requires ev.pointers[ev.actionIndex].id == s.activePointerId ==> HandOffIndex(ev.actionIndex) < |ev.pointers|
    ensures ev.pointers[ev.actionIndex].id != s.activePointerId ==> r == s
    ensures ev.pointers[ev.actionIndex].id == s.activePointerId ==>
      var q := ev.pointers[HandOffIndex(ev.actionIndex)];
      && r.activePointerId == q.id && r.lastTouchX == q.x && r.lastTouchY == q.y
      && r == s.(activePointerId := r.activePointerId, lastTouchX := r.lastTouchX, lastTouchY := r.lastTouchY)
  {
    var index := ev.actionIndex;
    if ev.pointers[index].id == s.activePointerId then
      var q := ev.pointers[if index == 0 then 1 else 0];
      s.(lastTouchX := q.x, lastTouchY := q.y, activePointerId := q.id)
    else
      s
  }

  /**
   `onTouchEvent`: dispatches on the action, ignores every other action, and
   reports every event it handles as consumed. An event missing a pointer
   index the chosen branch reads makes it throw.
   */
  function OnTouchEvent(s: ViewState, ev: MotionEvent): (r: TouchOutcome)
    ensures r.Handled? <==> TouchWellFormed(s, ev)
    ensures r.Handled? ==> r.consumed
    ensures r.Handled? && ev.action != Down ==> Received(r.t.log, TouchInput) == []
    ensures r.Handled? && ev.action != Down ==> r.t.state.touchListeners == s.touchListeners
    ensures r.Handled? && ev.action != Move ==> Received(r.t.log, PositionChanged) == []
    ensures r.Handled? && ev.action == Other ==> r.t == Transition(s, [])
  {
    if !TouchWellFormed(s, ev) then PointerIndexOutOfRange
    else
      var t := match ev.action
        case Down => OnDown(s, ev)
        case Move => OnMove(s, ev)
        case Up => Transition(OnUp(s), [])
        case Cancel => Transition(OnCancel(s), [])
        case PointerUp => Transition(OnPointerUp(s, ev), [])
        case Other => Transition(s, []);
      Handled(t, true)
  }
}

=== FILE: move_view_properties.dfy ===
/**
 Properties that relate the view's transitions to each other: what a drawn
 rectangle guarantees the hit test, how the one-shot list is drained, what
 the end of a gesture leaves behind, and the 32-bit evaluation of the
 `setPosition` guard.
 */
module MoveViewProperties {
  import opened Geometry
  import opened Listeners
  import opened MoveView

  /** When the image is inside the view, the rectangle it is drawn into lies within the view's pixels. */
  lemma DrawnRectInsideView(s: ViewState)
    requires Contained(s)
    ensures var rc := OnDraw(s).imagePosition;
      0 <= rc.left && rc.right < s.width && 0 <= rc.top && rc.bottom < s.height
  {
    var rc := OnDraw(s).imagePosition;
    assert rc.left as real > -1.0;
    assert rc.top as real > -1.0;
  }

  /** After a draw, a touch-down on the drawn centre (the truncated position) grabs the image. */
  lemma DownOnDrawnCentreGrabs(s: ViewState, ev: MotionEvent)
    requires ev.actionIndex < |ev.pointers|
    requires ev.pointers[ev.actionIndex].x == TruncToInt(s.posX) as real
    requires ev.pointers[ev.actionIndex].y == TruncToInt(s.posY) as real
    ensures OnDown(OnDraw(s), ev).state.moveable
  {
    var rc := OnDraw(s).imagePosition;
    assert rc.left == TruncToInt(s.posX) - Half(s.imageWidth);
    assert rc.top == TruncToInt(s.posY) - Half(s.imageHeight);
    assert InRect(rc, ev.pointers[ev.actionIndex].x, ev.pointers[ev.actionIndex].y);
  }

  /**
   A touch-down drains distinct one-shot listeners by firing those at
   positions 0, 2, 4, ... (in that order, with the down coordinates) and
   leaving those at positions 1, 3, 5, ... registered.
   */
  lemma DownFiresEveryOtherListener(s: ViewState, ev: MotionEvent)
    requires ev.actionIndex < |ev.pointers|
    requires Distinct(s.touchListeners)
    ensures Received(OnDown(s, ev).log, TouchInput) == Evens(s.touchListeners)
    ensures OnDown(s, ev).state.touchListeners == Odds(s.touchListeners)
  {
    DrainSkipsEveryOther(s.touchListeners);
  }

  /** With exactly one armed listener, a touch-down fires it once with the down coordinates and disarms it. */
  lemma DownFiresSingleListener(s: ViewState, ev: MotionEvent, id: ListenerId)
    requires ev.actionIndex < |ev.pointers|
    requires s.touchListeners == [id]
    ensures var p := ev.pointers[ev.actionIndex];
      OnDown(s, ev).log == [Notification(TouchInput, id, p.x, p.y)]
    ensures OnDown(s, ev).state.touchListeners == []
  {
    DrainSingle(id);
  }

  /** A one-shot listener registered once that fires on a touch-down is no longer registered afterwards. */
  lemma DownDisarmsFiredListener(s: ViewState, ev: MotionEvent, id: ListenerId)
    requires ev.actionIndex < |ev.pointers|
    requires Distinct(s.touchListeners)
    requires id in Received(OnDown(s, ev).log, TouchInput)
    ensures id !in OnDown(s, ev).state.touchListeners
  {
    DrainedListenersGone(s.touchListeners, 0, id);
  }

  /** Once the last finger has lifted, moves change nothing until the next touch-down. */
  lemma MoveAfterUpIsInert(s: ViewState, ev: MotionEvent)
    ensures OnTouchEvent(OnUp(s), MotionEvent(Move, ev.actionIndex, ev.pointers))
         == Handled(Transition(OnUp(s), []), true)
  {
  }

  /**
   A cancelled drag keeps the view draggable: the next gesture drags the
   image even when its touch-down lands outside the drawn rectangle.
   */
  lemma CancelledDragResumesAnywhere(s: ViewState, ev: MotionEvent)
    requires s.moveable
    requires ev.actionIndex < |ev.pointers|
    ensures OnDown(OnCancel(s), ev).state.moveable
  {
  }

  /**
   A move that arrives after a cancel, before any touch-down, makes
   `onTouchEvent` throw when the view was draggable: the tracked id is the
   sentinel, which no pointer of the event carries.
   */
  lemma MoveAfterCancelThrows(s: ViewState, ev: MotionEvent)
    requires s.moveable
    requires forall j :: 0 <= j < |ev.pointers| ==> ev.pointers[j].id >= 0
    ensures OnTouchEvent(OnCancel(s), MotionEvent(Move, ev.actionIndex, ev.pointers)) == PointerIndexOutOfRange
  {
  }

  /** The pointers of an event carry pairwise different ids. */
  predicate DistinctIds(ps: seq<Pointer>) {
    forall i, j :: 0 <= i < j < |ps| ==> ps[i].id != ps[j].id
  }

  /**
   When the tracked finger lifts and tracking passes to another pointer, a
   following move with the same pointers does not shift the image: the last
   touch was reloaded from the new pointer, so the displacement is zero.
   */
  lemma HandOffAvoidsJump(s: ViewState, ev: MotionEvent)
    requires s.moveable
    requires ev.actionIndex < |ev.pointers| && HandOffIndex(ev.actionIndex) < |ev.pointers|
    requires ev.pointers[ev.actionIndex].id == s.activePointerId
    requires DistinctIds(ev.pointers)
    ensures var handed := OnPointerUp(s, ev);
      var moved := OnMove(handed, MotionEvent(Move, 0, ev.pointers)).state;
      moved.posX == s.posX && moved.posY == s.posY
  {
    var handed := OnPointerUp(s, ev);
    var j := HandOffIndex(ev.actionIndex);
    var k := FindPointerIndex(ev.pointers, handed.activePointerId);
    assert ev.pointers[j].id == handed.activePointerId;
    assert k == j;
  }

  /**
   Before the first layout the view has no area, so `setPosition` rejects
   every centre, whatever listeners have been registered since construction.
   */
  lemma UnlaidOutRejectsSetPosition(s: ViewState, x: int, y: int)
    requires s.width == 0 || s.height == 0
    ensures !Contained(s)
    ensures SetPosition(s, x, y) == Transition(s, [])
  {
  }

  /** Before the first draw the hit rectangle is empty, so a touch-down grabs the image only at (0, 0). */
  lemma FreshViewGrabsOnlyAtOrigin(imageWidth: nat, imageHeight: nat, ev: MotionEvent)
    requires ev.actionIndex < |ev.pointers|
    ensures OnDown(Init(imageWidth, imageHeight), ev).state.moveable <==>
      ev.pointers[ev.actionIndex].x == 0.0 && ev.pointers[ev.actionIndex].y == 0.0
  {
  }

  /** The getters read back exactly the coordinates an accepted `setPosition` was given. */
  lemma SetPositionThenGet(s: ViewState, x: int, y: int)
    requires FitsAt(s, x as real, y as real)
    ensures GetPositionX(SetPosition(s, x, y).state) == x as real
    ensures GetPositionY(SetPosition(s, x, y).state) == y as real
  {
  }

  /** `setPosition` accepts exactly the integer centres whose four integer edges pass the strict test. */
  lemma SetPositionAcceptsIff(s: ViewState, x: int, y: int)
    ensures FitsAt(s, x as real, y as real) <==>
      (x - Half(s.imageWidth) > 0 && x + Half(s.imageWidth) < s.width &&
       y - Half(s.imageHeight) > 0 && y + Half(s.imageHeight) < s.height)
  {
  }

  /**
   A size change makes the re-centred image fit exactly when each half size
   of the image is below the half size of the view.
   */
  lemma SizeChangedFitsIff(s: ViewState, w: nat, h: nat)
    ensures Contained(OnSizeChanged(s, w, h)) <==> Half(s.imageWidth) < w / 2 && Half(s.imageHeight) < h / 2
  {
    var r := OnSizeChanged(s, w, h);
    assert r.posX == (w / 2) as real && r.posY == (h / 2) as real;
    assert w / 2 + (w - w / 2) == w;
    assert h / 2 + (h - h / 2) == h;
  }

  /** A view of size `w` x `h` with an image of size `iw` x `ih`, laid out once. */
  function LaidOut(iw: nat, ih: nat, w: nat, h: nat): (s: ViewState)
    ensures s.width == w && s.height == h && s.imageWidth == iw && s.imageHeight == ih
  {
    OnSizeChanged(Init(iw, ih), w, h)
  }

  /**
   The 32-bit guard of `setPosition` lets an off-screen centre through: in a
   400 x 400 view with a 40 x 40 image, `x = Integer.MAX_VALUE` makes
   `x + mWidth / 2` wrap to a negative number, so the call is accepted and
   the image ends up outside the view.
   */
  lemma SetPositionOverflowEscapes()
    ensures var s := LaidOut(40, 40, 400, 400);
      var r := SetPositionAsWritten(s, INT_MAX, 200);
      r.state.posX == INT_MAX as real && !Contained(r.state)
  {
    var s := LaidOut(40, 40, 400, 400);
    assert Wrap32(INT_MAX + 20) == INT_MAX + 20 - TWO_TO_32;
    assert Wrap32(INT_MAX - 20) == INT_MAX - 20;
  }

  /** The exact-arithmetic guard rejects the same call and keeps the image inside the view. */
  lemma SetPositionCorrectedRejects()
    ensures var s := LaidOut(40, 40, 400, 400);
      SetPosition(s, INT_MAX, 200) == Transition(s, []) && Contained(s)
  {
  }
}

=== FILE: move_view_runs.dfy ===
/**
 The view driven by a sequence of calls: every entry point as one event, a
 run that stops when `onTouchEvent` throws, and the invariants that hold
 along runs without a size change.
 */
module MoveViewRuns {
  import opened Listeners
  import MV = MoveView

  /** One call into the view. */
  datatype Event =
    | Touch(motion: MV.MotionEvent)
    | Draw
    | SetPosition(x: int, y: int)
    | SizeChanged(w: nat, h: nat)
    | SetOnTouchInputListener(id: ListenerId)
    | UnsetOnTouchInputListener(id: ListenerId)
    | SetOnPositionChangedListener(id: ListenerId)
    | UnsetPositionChangedListener(id: ListenerId)

  datatype Option<T> = None | Some(value: T)

  /** One call: its transition, or None when `onTouchEvent` throws. */
  function Apply(s: MV.ViewState, e: Event): (r: Option<MV.Transition>)
    ensures r.None? <==> e.Touch? && !MV.TouchWellFormed(s, e.motion)
    ensures r.Some? && !e.SizeChanged? ==>
      && r.value.state.width == s.width && r.value.state.height == s.height
      && r.value.state.imageWidth == s.imageWidth && r.value.state.imageHeight == s.imageHeight
    ensures r.Some? && !e.SetOnPositionChangedListener? && !e.UnsetPositionChangedListener? ==>
      r.value.state.positionListeners == s.positionListeners
  {
    match e
    case Touch(ev) =>
      (match MV.OnTouchEvent(s, ev)
       case Handled(t, _) => Some(t)
       case PointerIndexOutOfRange => None)
    case Draw => Some(MV.Transition(MV.OnDraw(s), []))
    case SetPosition(x, y) => Some(MV.SetPosition(s, x, y))
    case SizeChanged(w, h) => Some(MV.Transition(MV.OnSizeChanged(s, w, h), []))
    case SetOnTouchInputListener(id) =>
      Some(MV.Transition(s.(touchListeners := Add(s.touchListeners, id)), []))
    case UnsetOnTouchInputListener(id) =>
      Some(MV.Transition(s.(touchListeners := Remove(s.touchListeners, id)), []))
    case SetOnPositionChangedListener(id) =>
      Some(MV.Transition(s.(positionListeners := Add(s.positionListeners, id)), []))
    case UnsetPositionChangedListener(id) =>
      Some(MV.Transition(s.(positionListeners := Remove(s.positionListeners, id)), []))
  }

  /** The calls in order; the log is every notification of the run, in order. None once a call throws. */
  function Run(s: MV.ViewState, evs: seq<Event>): Option<MV.Transition>
    decreases |evs|
  {
    if evs == [] then Some(MV.Transition(s, []))
    else
      match Apply(s, evs[0])
      case None => None
      case Some(t) =>
        match Run(t.state, evs[1..])
        case None => None
        case Some(u) => Some(MV.Transition(u.state, t.log + u.log))
  }

  predicate NoResize(evs: seq<Event>) {
    forall k :: 0 <= k < |evs| ==> !evs[k].SizeChanged?
  }

  /**
   Every call except a size change keeps the image strictly inside the view:
   `setPosition` and moves only accept positions that fit, and nothing else
   touches the position or the sizes.
   */
  lemma ApplyKeepsImageInside(s: MV.ViewState, e: Event)
    requires MV.Contained(s) && !e.SizeChanged?
    ensures Apply(s, e).Some? ==> MV.Contained(Apply(s, e).value.state)
  {
    if e.Touch? && MV.TouchWellFormed(s, e.motion) {
      var ev := e.motion;
      match ev.action
      case Move => assert MV.Contained(MV.OnMove(s, ev).state);
      case Down => assert MV.OnDown(s, ev).state.posX == s.posX;
      case _ =>
    }
  }

  /** Along any run without size changes, the containment invariant is preserved. */
  lemma {:induction false} RunKeepsImageInside(s: MV.ViewState, evs: seq<Event>)
    requires MV.Contained(s) && NoResize(evs)
    ensures Run(s, evs).Some? ==> MV.Contained(Run(s, evs).value.state)
    decreases |evs|
  {
    if evs != [] {
      ApplyKeepsImageInside(s, evs[0]);
      var r := Apply(s, evs[0]);
      if r.Some? {
        assert NoResize(evs[1..]);
        RunKeepsImageInside(r.value.state, evs[1..]);
      }
    }
  }

  /** Every position-changed notification of `t` reports its centre, and that centre lies strictly inside the view. */
  predicate NotifiesNewCentre(t: MV.Transition) {
    forall k :: 0 <= k < |t.log| && t.log[k].channel == PositionChanged ==>
      t.log[k].x == t.state.posX && t.log[k].y == t.state.posY && MV.Contained(t.state)
  }

  /**
   Every position-changed notification of one call reports the view's new
   centre, and that centre lies strictly inside the view.
   */
  lemma ApplyNotifiesOnlyInside(s: MV.ViewState, e: Event)
    ensures Apply(s, e).Some? ==> NotifiesNewCentre(Apply(s, e).value)
  {
    var r := Apply(s, e);
    if r.Some? {
      var t := r.value;
      match e
      case Touch(ev) =>
        TouchNotifiesOnlyInside(s, ev);
        assert t == MV.OnTouchEvent(s, ev).t;
      case SetPosition(x, y) =>
        assert t == MV.SetPosition(s, x, y);
      case _ =>
        assert t.log == [];
    }
  }

  /** The touch-event case: only an accepted move notifies position listeners, with the new centre. */
  lemma TouchNotifiesOnlyInside(s: MV.ViewState, ev: MV.MotionEvent)
    requires MV.TouchWellFormed(s, ev)
    ensures NotifiesNewCentre(MV.OnTouchEvent(s, ev).t)
  {
    var t := MV.OnTouchEvent(s, ev).t;
    match ev.action
    case Move =>
      assert t == MV.OnMove(s, ev);
    case Down =>
      assert t == MV.OnDown(s, ev);
      assert forall k :: 0 <= k < |t.log| ==> t.log[k].channel == TouchInput;
    case _ =>
      assert t.log == [];
  }

  /** Every position-changed notification of `log` carries a centre at which the image of `s` fits. */
  predicate ReportsFit(s: MV.ViewState, log: seq<Notification>) {
    forall k :: 0 <= k < |log| && log[k].channel == PositionChanged ==> MV.FitsAt(s, log[k].x, log[k].y)
  }

  lemma ReportsFitAppend(s: MV.ViewState, a: seq<Notification>, b: seq<Notification>)
    requires ReportsFit(s, a) && ReportsFit(s, b)
    ensures ReportsFit(s, a + b)
  {
    forall k | 0 <= k < |a + b| && (a + b)[k].channel == PositionChanged
      ensures MV.FitsAt(s, (a + b)[k].x, (a + b)[k].y)
    {
      if k >= |a| {
        assert (a + b)[k] == b[k - |a|];
      }
    }
  }

  lemma ReportsFitSameSizes(a: MV.ViewState, b: MV.ViewState, log: seq<Notification>)
    requires a.width == b.width && a.height == b.height
    requires a.imageWidth == b.imageWidth && a.imageHeight == b.imageHeight
    requires ReportsFit(b, log)
    ensures ReportsFit(a, log)
  {
  }

  /**
   With no size change in a run, every position-changed notification it
   emits carries a centre at which the image lies strictly inside the view.
   */
  lemma {:induction false} RunNotifiesOnlyInside(s: MV.ViewState, evs: seq<Event>)
    requires NoResize(evs)
    ensures Run(s, evs).Some? ==> ReportsFit(s, Run(s, evs).value.log)
    decreases |evs|
  {
    if evs != [] {
      var r := Apply(s, evs[0]);
      if r.Some? {
        var t := r.value;
        ApplyNotifiesOnlyInside(s, evs[0]);
        assert NotifiesNewCentre(t);
        assert ReportsFit(t.state, t.log);
        assert NoResize(evs[1..]);
        RunNotifiesOnlyInside(t.state, evs[1..]);
        var rest := Run(t.state, evs[1..]);
        if rest.Some? {
          ReportsFitAppend(t.state, t.log, rest.value.log);
          ReportsFitSameSizes(s, t.state, t.log + rest.value.log);
        }
      }
    }
  }

  /** How many times a run arms listener `id` as a one-shot touch listener. */
  function Arms(evs: seq<Event>, id: ListenerId): (n: nat)
    ensures n <= |evs|
    decreases |evs|
  {
    if evs == [] then 0
    else (if evs[0] == SetOnTouchInputListener(id) then 1 else 0) + Arms(evs[1..], id)
  }

  /** How many touch-input notifications listener `id` receives in `log`. */
  function TouchFires(log: seq<Notification>, id: ListenerId): nat {
    multiset(Received(log, TouchInput))[id]
  }

  /** What listener `id` receives in one call plus what stays registered, against what was registered plus what the call arms. */
  predicate FiresWithinArmed(s: MV.ViewState, e: Event, id: ListenerId, t: MV.Transition) {
    TouchFires(t.log, id) + multiset(t.state.touchListeners)[id]
      <= multiset(s.touchListeners)[id] + (if e == SetOnTouchInputListener(id) then 1 else 0)
  }

  /**
   Within one call, what a one-shot listener receives plus what stays
   registered never exceeds what was registered plus what the call arms.
   */
  lemma ApplyFiresAtMostArmed(s: MV.ViewState, e: Event, id: ListenerId)
    ensures Apply(s, e).Some? ==> FiresWithinArmed(s, e, id, Apply(s, e).value)
  {
    var r := Apply(s, e);
    if r.Some? {
      var t := r.value;
      match e
      case Touch(ev) =>
        TouchFiresAtMostArmed(s, ev, id);
        assert t == MV.OnTouchEvent(s, ev).t;
      case SetPosition(x, y) =>
        assert t == MV.SetPosition(s, x, y);
        assert Received(t.log, TouchInput) == [];
      case SetOnTouchInputListener(other) =>
        assert t.state.touchListeners == Add(s.touchListeners, other) && t.log == [];
      case UnsetOnTouchInputListener(other) =>
        assert t.state.touchListeners == Remove(s.touchListeners, other) && t.log == [];
        RemoveCounts(s.touchListeners, other);
      case _ =>
        assert t.state.touchListeners == s.touchListeners && t.log == [];
    }
  }

  /** Within one touch event, only a touch-down fires one-shot listeners, and only registered ones. */
  lemma TouchFiresAtMostArmed(s: MV.ViewState, ev: MV.MotionEvent, id: ListenerId)
    requires MV.TouchWellFormed(s, ev)
    ensures var t := MV.OnTouchEvent(s, ev).t;
      TouchFires(t.log, id) + multiset(t.state.touchListeners)[id] <= multiset(s.touchListeners)[id]
  {
    if ev.action == MV.Down {
      var t := MV.OnDown(s, ev);
      assert MV.OnTouchEvent(s, ev).t == t;
    }
  }

  /**
   Over a whole run, a one-shot listener fires at most as often as it was
   registered at the start plus the number of times the run arms it.
   */
  lemma {:induction false} RunFiresAtMostArmed(s: MV.ViewState, evs: seq<Event>, id: ListenerId)
    ensures Run(s, evs).Some? ==>
      var t := Run(s, evs).value;
      TouchFires(t.log, id) + multiset(t.state.touchListeners)[id]
        <= multiset(s.touchListeners)[id] + Arms(evs, id)
    decreases |evs|
  {
    if evs != [] {
      var r := Apply(s, evs[0]);
      if r.Some? {
        var t := r.value;
        ApplyFiresAtMostArmed(s, evs[0], id);
        RunFiresAtMostArmed(t.state, evs[1..], id);
        var rest := Run(t.state, evs[1..]);
        if rest.Some? {
          ReceivedAppend(t.log, rest.value.log, TouchInput);
        }
      }
    }
  }

  /** A listener that is not registered and is armed once in a run fires at most once in that run. */
  lemma ArmedOnceFiresAtMostOnce(s: MV.ViewState, evs: seq<Event>, id: ListenerId)
    requires id !in s.touchListeners && Arms(evs, id) == 1
    ensures Run(s, evs).Some? ==> TouchFires(Run(s, evs).value.log, id) <= 1
  {
    RunFiresAtMostArmed(s, evs, id);
  }

  /**
   Apart from a size change, a call that moves the image tells every
   position listener, in registration order.
   */
  lemma PositionChangeIsAnnounced(s: MV.ViewState, e: Event)
    requires !e.SizeChanged?
    ensures Apply(s, e).Some? ==>
      var t := Apply(s, e).value;
      (t.state.posX != s.posX || t.state.posY != s.posY) ==> Received(t.log, PositionChanged) == s.positionListeners
  {
    if e.Touch? && MV.TouchWellFormed(s, e.motion) {
      var ev := e.motion;
      match ev.action
      case Move =>
      case Down => assert MV.OnDown(s, ev).state.posX == s.posX;
      case _ =>
    }
  }
}

=== FILE: move_view_scenarios.dfy ===
/**
 Concrete runs: a 400 x 400 view showing a 40 x 40 image, with position
 listener 7 registered.
 */
module MoveViewScenarios {
  import Geometry
  import opened Listeners
  import MV = MoveView
  import opened MoveViewRuns
  import MoveViewProperties

  /** The view after layout, with one position listener. */
  function Start(): (s: MV.ViewState)
    ensures s.posX == 200.0 && s.posY == 200.0 && MV.Contained(s)
    ensures s.positionListeners == [7] && s.touchListeners == []
  {
    MV.OnSizeChanged(MV.Init(40, 40), 400, 400).(positionListeners := [7])
  }

  function Finger(x: real, y: real): seq<MV.Pointer> {
    [MV.Pointer(0, x, y)]
  }

  /** A centre whose right edge would reach 410 is rejected and leaves the view as it was. */
  lemma RejectedSetPositionKeepsCentre()
    ensures Run(Start(), [SetPosition(390, 200)]) == Some(MV.Transition(Start(), []))
  {
    var s := Start();
    var e := SetPosition(390, 200);
    var none: seq<Notification> := [];
    assert Apply(s, e) == Some(MV.Transition(s, none));
    assert [e][1..] == [];
    assert Run(s, []) == Some(MV.Transition(s, none));
    assert none + none == none;
  }

  /** Setting the current centre is accepted and reported to the listener. */
  lemma IdentitySetPositionNotifies()
    ensures Run(Start(), [SetPosition(200, 200)])
         == Some(MV.Transition(Start(), [Notification(PositionChanged, 7, 200.0, 200.0)]))
  {
    var t := MV.SetPosition(Start(), 200, 200);
    assert t.state == Start();
    assert t.log == [Notification(PositionChanged, 7, 200.0, 200.0)];
    assert [SetPosition(200, 200)][1..] == [];
  }

  /** A touch-down inside the drawn image followed by a move of (10, 10) drags the centre to (210, 210). */
  lemma DragMovesCentre()
    ensures var drawn := MV.OnDraw(Start());
      var down := MV.OnDown(drawn, MV.MotionEvent(MV.Down, 0, Finger(205.0, 205.0)));
      var move := MV.OnMove(down.state, MV.MotionEvent(MV.Move, 0, Finger(215.0, 215.0)));
      && down.state.moveable
      && move.state.posX == 210.0 && move.state.posY == 210.0
      && move.log == [Notification(PositionChanged, 7, 210.0, 210.0)]
  {
    var drawn := MV.OnDraw(Start());
    assert drawn.imagePosition == Geometry.Rect(180, 180, 220, 220);
    var down := MV.OnDown(drawn, MV.MotionEvent(MV.Down, 0, Finger(205.0, 205.0)));
    assert down.state.activePointerId == 0;
    assert MV.FindPointerIndex(Finger(215.0, 215.0), 0) == 0;
  }

  /** An armed one-shot listener fires on the first touch-down only. */
  lemma OneShotFiresOnce()
    ensures var evs := [SetOnTouchInputListener(1),
                        Touch(MV.MotionEvent(MV.Down, 0, Finger(300.0, 300.0))),
                        Touch(MV.MotionEvent(MV.Up, 0, Finger(300.0, 300.0))),
                        Touch(MV.MotionEvent(MV.Down, 0, Finger(100.0, 100.0)))];
      Run(Start(), evs).Some?
      && Run(Start(), evs).value.log == [Notification(TouchInput, 1, 300.0, 300.0)]
  {
    var e0 := SetOnTouchInputListener(1);
    var e1 := Touch(MV.MotionEvent(MV.Down, 0, Finger(300.0, 300.0)));
    var e2 := Touch(MV.MotionEvent(MV.Up, 0, Finger(300.0, 300.0)));
    var e3 := Touch(MV.MotionEvent(MV.Down, 0, Finger(100.0, 100.0)));
    var evs := [e0, e1, e2, e3];
    var s1 := Start().(touchListeners := [1]);
    assert Apply(Start(), e0) == Some(MV.Transition(s1, []));
    var d1 := MV.OnDown(s1, e1.motion);
    MoveViewProperties.DownFiresSingleListener(s1, e1.motion, 1);
    assert Apply(s1, e1) == Some(d1);
    var s3 := MV.OnUp(d1.state);
    assert Apply(d1.state, e2) == Some(MV.Transition(s3, []));
    var d3 := MV.OnDown(s3, e3.motion);
    assert d3.log == [];
    assert Apply(s3, e3) == Some(d3);
    assert Run(d3.state, []) == Some(MV.Transition(d3.state, []));
    assert evs[1..] == [e1, e2, e3] && evs[1..][1..] == [e2, e3] && evs[1..][1..][1..] == [e3];
    assert [e3][1..] == [];
    assert Run(s3, [e3]) == Some(MV.Transition(d3.state, []));
    assert Run(d1.state, [e2, e3]) == Some(MV.Transition(d3.state, []));
    assert Run(s1, [e1, e2, e3]) == Some(MV.Transition(d3.state, d1.log));
  }
}
